=== FILE: README.md ===
# sensei_botu relay decision, in Dafny

sensei_botu relays messages from one WhatsApp account (the "sensei") into a
Telegram chat. Its only decision logic is the whatsmeow event handler
`bot.eventHandler` and its helper `ToDownLoadableMessage`. This project models
them as pure functions. Given one event, the environment at that moment and
the download call, `Relay.HandleEvent` returns the list of Telegram messages the
handler sends. Each of those messages is a text, photo, document or video, and
carries a chat id, a file name and a caption.

Modules:

- `Wrappers` (wrappers.dfy): `Option`, which stands for Go's nil pointers. Its
  `GetOr` stands for the nil-safe protobuf getters.
- `Inbound` (inbound.dfy): the part of `events.Message` the handler reads. That
  is the sender's user, `Info.Type`, and the optional conversation,
  extended-text, image, document, video and audio parts with their caption and
  file-name fields. A missing field reads as "".
- `Outbound` (outbound.dfy): the four Telegram message shapes
  (`NewMessage`, `NewPhoto`, `NewDocument`, `NewVideo`) and `FileBytes`.
- `StrConv` (strconv.dfy): `strconv.ParseInt(s, 10, 64)`, which turns
  `GROUP_ID` into the chat id. It takes an optional sign and then digits. The
  digits are scanned left to right against the unsigned 64-bit maximum. The
  first failure met, a non-digit or a value above that maximum, decides the
  error. The signed 64-bit range is checked only after the whole string has
  been read. So a well-formed prefix above MaxInt64, but not above the
  unsigned 64-bit maximum, followed by a non-digit targets chat 0. A syntax
  error gives 0, and a value outside the signed range gives the bound on its
  side. ParseInt reads back what `FormatInt` writes
  (`FormatIntRoundTrip`).
- `Relay` (relay.dfy): media selection, the handler, and the handler applied
  to a sequence of events.

Points of main.go's behaviour worth noting:

- Routing is decided by `Info.Type` ("media", "text", "url"). The only content
  check is that an extended text forces "url". Any other type sends nothing.
  There is no classifier that looks at the content first.
- A failed download does not drop the event. The error is only printed, and
  the file is sent with whatever bytes came back.
- A document's upload name is its `FileName`, and "" when that is missing. It
  does not fall back to the caption.
- A `GROUP_ID` that does not parse does not drop the event. The message goes
  to chat 0. It goes to the clamped bound instead when the digits pass the
  unsigned 64-bit maximum before any non-digit, or when a well-formed number
  lies outside the signed range.
- Audio takes the default branch, which sends a document named "somewhat"
  with caption "somewhat". A "media" event with no media part reaches that
  branch too, but only if the download call given nil returns. The model
  assumes it does (see "## Left out"). An event typed "url" with no extended
  text sends an empty text.

## Model

| member | source | states |
|---|---|---|
| Relay.ToDownloadable | main.go:149-163 | No part is selected exactly when no image, document, video or audio part is present. A selected value is the message's own part, and no part that comes earlier in the order image, document, video, audio is present. |
| Relay.SelectionIsFirstPresent | main.go:149-163 | Converse of the above: a present part with no earlier-ranked part present is the one selected. |
| Relay.HandleEvent | main.go:28-90 | The handler sends exactly one message when the event is a message event from the configured sender and its effective type is "media", "text" or "url". In every other case it sends none. Every message goes to the chat id parsed from `GROUP_ID` on that call. For a "media" event with no media part, this assumes the download call given nil returns. |
| Relay.UnauthorizedSendsNothing | main.go:30-32 | A message whose sender user differs from `SENSEI_NUMBER` produces no send. |
| Relay.ExtendedTextOverridesType | main.go:37-39 | With an extended text present, the event is handled as "url" whatever `Info.Type` says. The single send is a text equal to the extended text, "" when it has none (lines 83-84). |
| Relay.TextRelayedVerbatim | main.go:80-82 | A "text" event sends one text whose body is exactly the conversation text, or "" when there is none. |
| Relay.UrlTypeWithoutExtendedText | main.go:83-84 | An event typed "url" with no extended text still sends one text, and that text is empty. |
| Relay.MediaAlwaysSendsOne | main.go:43-48 | A "media" event sends exactly one file. Its bytes are what the download of the selected part returned, whether or not the download reported an error. |
| Relay.MediaNaming | main.go:49-78 | The image case sends a photo named and captioned with the image caption. The document case sends a document named with the file name and captioned with the caption. The video case sends a video named and captioned with the video caption. Audio sends a document named and captioned "somewhat". So does a message with no media part, provided the download call given nil returns. |
| Relay.GroupChatId | main.go:34-35 | The chat id is a 64-bit signed integer. It equals the value of a well-formed in-range `GROUP_ID`. An overflowing one gives the bound on its side. An unset `GROUP_ID`, or one that is only a sign, gives 0. |
| Relay.MalformedGroupIdTargetsZero | main.go:35 | A `GROUP_ID` with a non-digit met before the digits exceed the unsigned 64-bit maximum targets chat 0 instead of dropping the event. |
| Relay.SignedOverflowThenNonDigitTargetsZero | main.go:35 | The digits of 2^63 followed by "x" target chat 0, not the clamped bound. The signed range is checked only after the whole string is read. |
| Relay.OverflowingGroupIdClamps | main.go:35 | Digits whose value exceeds the unsigned 64-bit maximum before any other character of `GROUP_ID` is read send to the bound on the side of the sign, whatever follows them. |
| Relay.GroupIdRoundTrip | main.go:35 | A chat id written in decimal is read back as the same chat id. |
| Relay.RelayAll | main.go:114 | Handling a sequence of events, each on its own call, sends at most one message per event. |
| Relay.RelayAllCount | main.go:28-90 | Over a sequence of events, the number of sends equals the number of relayable events. |
| Relay.RelayAllAppend | main.go:114 | The sends for two runs of events are the sends for each run, concatenated. Nothing is carried from one event to the next. |
| StrConv.ScanDigits | main.go:35 | The digit loop of `ParseUint` (the Go standard library's code, not the repository's). Its value is in the unsigned 64-bit range. A syntax error gives 0 and a range error gives the unsigned maximum. |
| StrConv.ScanDigitsExact | main.go:35 | The scanner reports no error exactly on digit strings whose decimal value fits 64 unsigned bits, and then returns that value. |
| StrConv.ScanDigitsSyntax | main.go:35 | A non-digit met before overflow is a syntax error, whatever follows it. |
| StrConv.ScanDigitsRange | main.go:35 | A digit string too large for 64 bits is a range error with the unsigned maximum. |
| StrConv.ParseUint64 | main.go:35 | The unsigned parse stays in range, and a range error carries the maximum. |
| StrConv.ParseInt64 | main.go:35 | The result is always a 64-bit signed value. A syntax error gives 0 and a range error gives one of the two bounds. |
| StrConv.ParseInt64Exact | main.go:35 | No error is reported exactly when the input is a signed decimal whose value fits 64 signed bits, and then the result is that value. |
| StrConv.ParseInt64Clamps | main.go:35 | A well-formed decimal outside the signed 64-bit range gives the bound on its sign's side, with a range error. |
| StrConv.ParseInt64PrefixOverflow | main.go:35 | A digit prefix that overflows before any other character is read gives a range error, clamped on the side of the sign. |
| StrConv.FormatIntRoundTrip | main.go:35 | Parsing the decimal form of any 64-bit signed integer gives that integer back with no error. |

## Left out

- `main` (main.go:92-147): the SQLite session store, whatsmeow client setup, QR login, connect and disconnect, and signal handling. All of it is I/O. The exception is the handler registration at line 114, which `RelayAll` models as one handler call per event, in order.
- The success or failure of `b.tg.Send`. Sends are output records, and a failed send is not modelled.
- What whatsmeow's `Download` does. It is a total function parameter (`Downloader`) of the model, and its library is not part of this model.
- Relay.MediaNaming: the "somewhat" send for a "media" event with no media part assumes that `Download(nil)` (main.go:44, with the nil from main.go:162) returns. If the library panics on nil, the real handler sends nothing, and this model does not represent that.
- Relay.MediaAlwaysSendsOne: "exactly one send" for a "media" event with no media part rests on the same assumption that `Download(nil)` returns.
- Relay.HandleEvent: the one send it promises for a "media" event with no media part rests on the same assumption.
- Logging with `println` and `fmt.Println` (main.go:36, 42, 46, 48, 81, 87).
- Reading the environment and `godotenv`. `SENSEI_NUMBER` and `GROUP_ID` are the `Env` parameter, which is supplied on every call, as the handler re-reads them.
- Concurrency between handler calls. The handler keeps no state between calls except the `sensei` global, and it reassigns that global from the environment at the start of each call (main.go:29).
- Bytes of the downloaded media are modelled as a sequence of 0..255 values. Their content is never inspected.

=== FILE: inbound.dfy ===
/** The part of a whatsmeow `events.Message` the relay reads: the sender's
    user part, the `Info.Type` string, and the optional sub-messages of the
    protobuf `Message`. A nil `Message` is the value with every part absent,
    because the generated getters are nil-safe and read a missing string as
    "". */
module Inbound {
  import opened Wrappers

  newtype byte = b: int | 0 <= b < 256

  /** The opaque reference (direct path and media key) a media part hands
      to the download call. */
  datatype MediaHandle = MediaHandle(ref: string)

  datatype ImagePart = ImagePart(caption: Option<string>, handle: MediaHandle)

  datatype DocumentPart = DocumentPart(fileName: Option<string>, caption: Option<string>, handle: MediaHandle)

  datatype VideoPart = VideoPart(caption: Option<string>, handle: MediaHandle)

  datatype AudioPart = AudioPart(handle: MediaHandle)

  /** A text with a link preview or a quote. */
  datatype ExtendedTextPart = ExtendedTextPart(text: Option<string>)

  datatype Message = Message(
    conversation: Option<string>,
    extendedText: Option<ExtendedTextPart>,
    image: Option<ImagePart>,
    document: Option<DocumentPart>,
    video: Option<VideoPart>,
    audio: Option<AudioPart>)
  {
    /** `GetConversation()` */
    function Conversation(): string {
      conversation.GetOr("")
    }

    /** `GetExtendedTextMessage().GetText()` */
    function ExtendedText(): string {
      if extendedText.Some? then extendedText.value.text.GetOr("") else ""
    }

    /** `GetImageMessage().GetCaption()` */
    function ImageCaption(): string {
      if image.Some? then image.value.caption.GetOr("") else ""
    }

    /** `GetDocumentMessage().GetFileName()` */
    function DocumentFileName(): string {
      if document.Some? then document.value.fileName.GetOr("") else ""
    }

    /** `GetDocumentMessage().GetCaption()` */
    function DocumentCaption(): string {
      if document.Some? then document.value.caption.GetOr("") else ""
    }

    /** `GetVideoMessage().GetCaption()` */
    function VideoCaption(): string {
      if video.Some? then video.value.caption.GetOr("") else ""
    }
  }

  /** `Info.Sender.User` and `Info.Type`. */
  datatype MessageInfo = MessageInfo(senderUser: string, msgType: string)

  /** What the client hands the registered handler: a message event, or any
      other event kind, which the handler ignores. */
  datatype Event = MessageEvent(info: MessageInfo, message: Message) | OtherEvent
}

=== FILE: outbound.dfy ===
/** The Telegram messages the relay builds: `NewMessage`, `NewPhoto`,
    `NewDocument` and `NewVideo`, each aimed at a chat id. */
module Outbound {
  import Inbound

  /** `tgbotapi.FileBytes`: an upload named `name`. */
  datatype FileBytes = FileBytes(name: string, bytes: seq<Inbound.byte>)

  datatype Send =
    | Text(chatId: int, text: string)
    | Photo(chatId: int, file: FileBytes, caption: string)
    | Document(chatId: int, file: FileBytes, caption: string)
    | Video(chatId: int, file: FileBytes, caption: string)
}

=== FILE: relay.dfy ===
/** The relay decision of `bot.eventHandler`: one event, the environment read
    at that moment and the download call go in; the Telegram messages the
    handler sends come out. `ToDownLoadableMessage` picks the media part. */
module Relay {
  import opened Wrappers
  import opened Inbound
  import Outbound
  import StrConv

  /** `SENSEI_NUMBER` and `GROUP_ID` as the handler reads them from the
      environment on each call; an unset variable reads as "". */
  datatype Env = Env(senseiNumber: string, groupId: string)

  /** What the download call returns: Go's `([]byte, error)`. */
  datatype DownloadResult = DownloadResult(data: seq<byte>, err: Option<string>)

  /** The part `ToDownLoadableMessage` returns. The variant stands for the
      type string returned beside it ("image", "document", "video",
      "audio"), and `None` for `(nil, "nil")`. */
  datatype Downloadable =
    | ImageMedia(image: ImagePart)
    | DocumentMedia(document: DocumentPart)
    | VideoMedia(video: VideoPart)
    | AudioMedia(audio: AudioPart)

  /** The whatsmeow download call, as the caller supplies it. */
  type Downloader = Option<Downloadable> -> DownloadResult

  datatype MediaKind = ImageKind | DocumentKind | VideoKind | AudioKind

  function KindOf(d: Downloadable): MediaKind {
    match d
    case ImageMedia(_) => ImageKind
    case DocumentMedia(_) => DocumentKind
    case VideoMedia(_) => VideoKind
    case AudioMedia(_) => AudioKind
  }

  /** Position of a kind in the order the parts are examined. */
  function Rank(k: MediaKind): nat {
    match k
    case ImageKind => 0
    case DocumentKind => 1
    case VideoKind => 2
    case AudioKind => 3
  }

  predicate Present(m: Message, k: MediaKind) {
    match k
    case ImageKind => m.image.Some?
    case DocumentKind => m.document.Some?
    case VideoKind => m.video.Some?
    case AudioKind => m.audio.Some?
  }

  /** `d` is the message's own part of `d`'s kind. */
  predicate PartOf(d: Downloadable, m: Message) {
    match d
    case ImageMedia(p) => m.image == Some(p)
    case DocumentMedia(p) => m.document == Some(p)
    case VideoMedia(p) => m.video == Some(p)
    case AudioMedia(p) => m.audio == Some(p)
  }

  /** `ToDownLoadableMessage`: the first part present, in the order image,
      document, video, audio; nothing when none is present. */
  function ToDownloadable(m: Message): (d: Option<Downloadable>)
    ensures d.None? <==> forall k :: !Present(m, k)
    ensures d.Some? ==> PartOf(d.value, m)
    ensures d.Some? ==> forall k :: Rank(k) < Rank(KindOf(d.value)) ==> !Present(m, k)
  {
    if Present(m, ImageKind) then Some(ImageMedia(m.image.value))
    else if Present(m, DocumentKind) then Some(DocumentMedia(m.document.value))
    else if Present(m, VideoKind) then Some(VideoMedia(m.video.value))
    else if Present(m, AudioKind) then Some(AudioMedia(m.audio.value))
    else None
  }

  /** Conversely, a part of the message with no higher-ranked part present
      is the one selected. */
  lemma SelectionIsFirstPresent(m: Message, d: Downloadable)
    requires PartOf(d, m)
    requires forall k :: Rank(k) < Rank(KindOf(d)) ==> !Present(m, k)
    ensures ToDownloadable(m) == Some(d)
  {
  }

  /** The chat id sent to: `strconv.ParseInt(GROUP_ID, 10, 64)` with its
      error discarded. */
  function GroupChatId(groupId: string): (id: int)
    ensures StrConv.MinInt64 <= id <= StrConv.MaxInt64
    ensures (StrConv.WellFormed(groupId) && StrConv.MinInt64 <= StrConv.SignedValue(groupId) <= StrConv.MaxInt64)
              ==> id == StrConv.SignedValue(groupId)
    ensures StrConv.WellFormed(groupId) && StrConv.SignedValue(groupId) > StrConv.MaxInt64 ==> id == StrConv.MaxInt64
    ensures StrConv.WellFormed(groupId) && StrConv.SignedValue(groupId) < StrConv.MinInt64 ==> id == StrConv.MinInt64
    ensures |StrConv.Body(groupId)| == 0 ==> id == 0
  {
    StrConv.ParseInt64Exact(groupId);
    StrConv.ParseInt64Clamps(groupId);
    StrConv.ParseInt64(groupId).value
  }

  predicate Authorized(info: MessageInfo, env: Env) {
    info.senderUser == env.senseiNumber
  }

  /** The type the handler switches on: "url" whenever an extended text is
      present, `Info.Type` otherwise. */
  function EffectiveType(info: MessageInfo, m: Message): string {
    if m.extendedText.Some? then "url" else info.msgType
  }

  /** The events the handler answers: message events from the configured
      sender whose effective type is one of the three it switches on. */
  predicate Relayable(evt: Event, env: Env) {
    && evt.MessageEvent?
    && Authorized(evt.info, env)
    && EffectiveType(evt.info, evt.message) in {"media", "text", "url"}
  }

  /** The message the "media" branch sends for the selected part. */
  function MediaSend(id: int, m: Message, sel: Option<Downloadable>, data: seq<byte>): Outbound.Send {
    match sel
    case Some(ImageMedia(_)) =>
      Outbound.Photo(id, Outbound.FileBytes(m.ImageCaption(), data), m.ImageCaption())
    case Some(DocumentMedia(_)) =>
      Outbound.Document(id, Outbound.FileBytes(m.DocumentFileName(), data), m.DocumentCaption())
    case Some(VideoMedia(_)) =>
      Outbound.Video(id, Outbound.FileBytes(m.VideoCaption(), data), m.VideoCaption())
    case _ =>
      Outbound.Document(id, Outbound.FileBytes("somewhat", data), "somewhat")
  }

  /** `bot.eventHandler`: the messages sent for one event. */
  function HandleEvent(evt: Event, env: Env, download: Downloader): (sends: seq<Outbound.Send>)
    ensures |sends| == if Relayable(evt, env) then 1 else 0
    ensures forall i :: 0 <= i < |sends| ==> sends[i].chatId == GroupChatId(env.groupId)
  {
    match evt
    case OtherEvent => []
    case MessageEvent(info, m) =>
      if !Authorized(info, env) then []
      else
        var id := GroupChatId(env.groupId);
        var messageType := EffectiveType(info, m);
        if messageType == "media" then
          var sel := ToDownloadable(m);
          [MediaSend(id, m, sel, download(sel).data)]
        else if messageType == "text" then
          [Outbound.Text(id, m.Conversation())]
        else if messageType == "url" then
          [Outbound.Text(id, m.ExtendedText())]
        else
          []
  }

  /** A message from anyone but the configured sender sends nothing. */
  lemma UnauthorizedSendsNothing(evt: Event, env: Env, download: Downloader)
    requires evt.MessageEvent? && evt.info.senderUser != env.senseiNumber
    ensures HandleEvent(evt, env, download) == []
  {
  }

  /** An extended text turns any event type, "media" and "text" included,
      into one text message carrying exactly that text; nothing is fetched. */
  lemma ExtendedTextOverridesType(evt: Event, env: Env, download: Downloader)
    requires evt.MessageEvent? && Authorized(evt.info, env)
    requires evt.message.extendedText.Some?
    ensures HandleEvent(evt, env, download)
              == [Outbound.Text(GroupChatId(env.groupId), evt.message.extendedText.value.text.GetOr(""))]
  {
  }

  /** A "text" event is relayed as one text message equal to the
      conversation text; an absent conversation gives "". */
  lemma TextRelayedVerbatim(evt: Event, env: Env, download: Downloader)
    requires evt.MessageEvent? && Authorized(evt.info, env)
    requires evt.message.extendedText.None? && evt.info.msgType == "text"
    ensures HandleEvent(evt, env, download) == [Outbound.Text(GroupChatId(env.groupId), evt.message.conversation.GetOr(""))]
  {
  }

  /** An event typed "url" with no extended text still takes the "url"
      branch and sends an empty text. */
  lemma UrlTypeWithoutExtendedText(evt: Event, env: Env, download: Downloader)
    requires evt.MessageEvent? && Authorized(evt.info, env)
    requires evt.message.extendedText.None? && evt.info.msgType == "url"
    ensures HandleEvent(evt, env, download) == [Outbound.Text(GroupChatId(env.groupId), "")]
  {
  }

  /** A "media" event sends exactly one file, whose bytes are whatever the
      download of the selected part returned, error or not. */
  lemma MediaAlwaysSendsOne(evt: Event, env: Env, download: Downloader)
    requires evt.MessageEvent? && Authorized(evt.info, env)
    requires evt.message.extendedText.None? && evt.info.msgType == "media"
    ensures var sends := HandleEvent(evt, env, download);
            && |sends| == 1
            && !sends[0].Text?
            && sends[0].file.bytes == download(ToDownloadable(evt.message)).data
  {
  }

  /** File name and caption per kind: the image caption twice; the document's
      file name and caption; the video caption twice; and "somewhat" twice
      for audio or for no media part at all. */
  lemma MediaNaming(evt: Event, env: Env, download: Downloader)
    requires evt.MessageEvent? && Authorized(evt.info, env)
    requires evt.message.extendedText.None? && evt.info.msgType == "media"
    ensures var m := evt.message;
            var id := GroupChatId(env.groupId);
            var data := download(ToDownloadable(m)).data;
            var sends := HandleEvent(evt, env, download);
            && (m.image.Some? ==>
                  sends == [Outbound.Photo(id, Outbound.FileBytes(m.image.value.caption.GetOr(""), data), m.image.value.caption.GetOr(""))])
            && (m.image.None? && m.document.Some? ==>
                  sends == [Outbound.Document(id, Outbound.FileBytes(m.document.value.fileName.GetOr(""), data), m.document.value.caption.GetOr(""))])
            && (m.image.None? && m.document.None? && m.video.Some? ==>
                  sends == [Outbound.Video(id, Outbound.FileBytes(m.video.value.caption.GetOr(""), data), m.video.value.caption.GetOr(""))])
            && (m.image.None? && m.document.None? && m.video.None? ==>
                  sends == [Outbound.Document(id, Outbound.FileBytes("somewhat", data), "somewhat")])
  {
  }

  /** A malformed `GROUP_ID` does not stop the relay: a character that is not
      a digit, met before the digits exceed the unsigned 64-bit maximum, makes
      the target chat 0. */
  lemma MalformedGroupIdTargetsZero(groupId: string, i: nat)
    requires i < |StrConv.Body(groupId)| && !StrConv.IsDigit(StrConv.Body(groupId)[i])
    requires StrConv.AllDigits(StrConv.Body(groupId)[..i])
    requires StrConv.DecimalValue(StrConv.Body(groupId)[..i]) <= StrConv.MaxUint64
    ensures GroupChatId(groupId) == 0
  {
    StrConv.ScanDigitsSyntax(StrConv.Body(groupId), i);
  }

  /** The signed range is checked only after the whole string is read: the
      digits of 2^63, one past the largest id, followed by a non-digit, are a
      syntax error and target chat 0, not the clamped bound. */
  lemma SignedOverflowThenNonDigitTargetsZero()
    ensures GroupChatId(StrConv.Digits(StrConv.MaxInt64 + 1) + "x") == 0
  {
    var ds := StrConv.Digits(StrConv.MaxInt64 + 1);
    var g := ds + "x";
    StrConv.DigitsSound(StrConv.MaxInt64 + 1);
    assert StrConv.IsDigit(g[0]);
    assert StrConv.Body(g) == g;
    assert g[..|ds|] == ds;
    MalformedGroupIdTargetsZero(g, |ds|);
  }

  /** Digits whose value exceeds the unsigned 64-bit maximum before any other
      character of `GROUP_ID` is read send to the bound on the side of the
      sign, whatever follows them. */
  lemma OverflowingGroupIdClamps(groupId: string, i: nat)
    requires i <= |StrConv.Body(groupId)|
    requires StrConv.AllDigits(StrConv.Body(groupId)[..i])
    requires StrConv.DecimalValue(StrConv.Body(groupId)[..i]) > StrConv.MaxUint64
    ensures GroupChatId(groupId) == if StrConv.Negative(groupId) then StrConv.MinInt64 else StrConv.MaxInt64
  {
    StrConv.ParseInt64PrefixOverflow(groupId, i);
  }

  /** A group id written by `FormatInt` is read back as the same chat. */
  lemma GroupIdRoundTrip(id: int)
    requires StrConv.MinInt64 <= id <= StrConv.MaxInt64
    ensures GroupChatId(StrConv.FormatInt(id)) == id
  {
    StrConv.FormatIntRoundTrip(id);
  }

  /** One call of the handler: the event, the environment at that moment, and
      the download call it would use. */
  datatype Delivery = Delivery(evt: Event, env: Env, download: Downloader)

  /** The handler invoked once per delivered event, in order. */
  function RelayAll(ds: seq<Delivery>): (sends: seq<Outbound.Send>)
    ensures |sends| <= |ds|
    decreases |ds|
  {
    if |ds| == 0 then []
    else
      var d := ds[|ds| - 1];
      RelayAll(ds[..|ds| - 1]) + HandleEvent(d.evt, d.env, d.download)
  }

  function CountRelayable(ds: seq<Delivery>): nat
    decreases |ds|
  {
    if |ds| == 0 then 0
    else CountRelayable(ds[..|ds| - 1]) + (if Relayable(ds[|ds| - 1].evt, ds[|ds| - 1].env) then 1 else 0)
  }

  /** Exactly one send per relayable event, none for any other. */
  lemma {:induction false} RelayAllCount(ds: seq<Delivery>)
    ensures |RelayAll(ds)| == CountRelayable(ds)
    decreases |ds|
  {
    if |ds| > 0 {
      RelayAllCount(ds[..|ds| - 1]);
    }
  }

  /** Handling is per event: the sends for two runs of events are the sends
      of each run, in order, with nothing carried from one to the other. */
  lemma {:induction false} RelayAllAppend(a: seq<Delivery>, b: seq<Delivery>)
    ensures RelayAll(a + b) == RelayAll(a) + RelayAll(b)
    decreases |b|
  {
    if |b| == 0 {
      assert a + b == a;
    } else {
      var b' := b[..|b| - 1];
      assert (a + b)[..|a + b| - 1] == a + b';
      RelayAllAppend(a, b');
    }
  }
}

=== FILE: strconv.dfy ===
/** Base-10, 64-bit integer parsing and formatting with the behaviour of Go's
    `strconv.ParseInt(s, 10, 64)` and `strconv.FormatInt(n, 10)`: an optional
    leading sign, then at least one ASCII digit. The digits are scanned left
    to right against the unsigned 64-bit maximum, and the first failure met
    (a non-digit, or a value above that maximum) decides the error. Only
    after a clean scan is the value checked against the signed 64-bit range.
    A syntax error yields 0 and a range error yields the bound on the side of
    the sign. */
module StrConv {
  import opened Wrappers

  const MaxUint64: int := 0xFFFF_FFFF_FFFF_FFFF
  const MaxInt64: int := 0x7FFF_FFFF_FFFF_FFFF
  const MinInt64: int := -0x8000_0000_0000_0000

  /** The two causes a `strconv.NumError` reports. */
  datatype NumError = ErrSyntax | ErrRange

  /** Go's `(value, error)` pair. The value is defined even beside an error. */
  datatype Parsed = Parsed(value: int, err: Option<NumError>)

  predicate IsDigit(c: char) {
    '0' <= c <= '9'
  }

  function DigitValue(c: char): (d: nat)
    requires IsDigit(c)
    ensures d < 10
  {
    c as int - '0' as int
  }

  predicate AllDigits(s: string) {
    forall i :: 0 <= i < |s| ==> IsDigit(s[i])
  }

  /** The unbounded value of a digit string: the reference the scanner is
      measured against. */
  function DecimalValue(s: string): nat
    requires AllDigits(s)
    decreases |s|
  {
    if |s| == 0 then 0 else DecimalValue(s[..|s| - 1]) * 10 + DigitValue(s[|s| - 1])
  }

  /** The digit loop of `ParseUint`: the result for `s` extends the result for
      `s` without its last character, so an earlier failure is kept. */
  function ScanDigits(s: string): (r: Parsed)
    decreases |s|
    ensures 0 <= r.value <= MaxUint64
    ensures r.err == Some(ErrSyntax) ==> r.value == 0
    ensures r.err == Some(ErrRange) ==> r.value == MaxUint64
  {
    if |s| == 0 then Parsed(0, None)
    else
      var p := ScanDigits(s[..|s| - 1]);
      var c := s[|s| - 1];
      if p.err.Some? then p
      else if !IsDigit(c) then Parsed(0, Some(ErrSyntax))
      else
        var n := p.value * 10 + DigitValue(c);
        if n > MaxUint64 then Parsed(MaxUint64, Some(ErrRange)) else Parsed(n, None)
  }

  /** `strconv.ParseUint(s, 10, 64)`: the empty string is a syntax error. */
  function ParseUint64(s: string): (r: Parsed)
    ensures 0 <= r.value <= MaxUint64
    ensures r.err == Some(ErrRange) ==> r.value == MaxUint64
  {
    if |s| == 0 then Parsed(0, Some(ErrSyntax)) else ScanDigits(s)
  }

  predicate Negative(s: string) {
    |s| > 0 && s[0] == '-'
  }

  /** `s` without its leading sign, if it has one. */
  function Body(s: string): string {
    if |s| > 0 && (s[0] == '+' || s[0] == '-') then s[1..] else s
  }

  /** An optional sign followed by one or more digits. */
  predicate WellFormed(s: string) {
    |Body(s)| > 0 && AllDigits(Body(s))
  }

  function SignedValue(s: string): int
    requires WellFormed(s)
  {
    var v: int := DecimalValue(Body(s));
    if Negative(s) then -v else v
  }

  /** `strconv.ParseInt(s, 10, 64)`. */
  function ParseInt64(s: string): (r: Parsed)
    ensures MinInt64 <= r.value <= MaxInt64
    ensures r.err == Some(ErrSyntax) ==> r.value == 0
    ensures r.err == Some(ErrRange) ==> r.value == MaxInt64 || r.value == MinInt64
  {
    if |s| == 0 then Parsed(0, Some(ErrSyntax))
    else
      var u := ParseUint64(Body(s));
      if u.err == Some(ErrSyntax) then Parsed(0, Some(ErrSyntax))
      else if !Negative(s) && u.value > MaxInt64 then Parsed(MaxInt64, Some(ErrRange))
      else if Negative(s) && u.value > -MinInt64 then Parsed(MinInt64, Some(ErrRange))
      else Parsed(if Negative(s) then -u.value else u.value, None)
  }

  /** The decimal digits of `n`, most significant first, without leading zeros. */
  function Digits(n: nat): (s: string)
    decreases n
  {
    if n < 10 then [('0' as int + n) as char]
    else Digits(n / 10) + [('0' as int + n % 10) as char]
  }

  /** `strconv.FormatInt(n, 10)`. */
  function FormatInt(n: int): string {
    if n < 0 then "-" + Digits(-n) else Digits(n)
  }

  lemma {:induction false} DecimalValueMonotone(s: string)
    requires |s| > 0 && AllDigits(s)
    ensures AllDigits(s[..|s| - 1])
    ensures DecimalValue(s[..|s| - 1]) <= DecimalValue(s)
  {
  }

  /** The scanner succeeds exactly on digit strings whose value fits in 64
      unsigned bits, and then it returns that value. */
  lemma {:induction false} ScanDigitsExact(s: string)
    ensures ScanDigits(s).err == None <==> AllDigits(s) && DecimalValue(s) <= MaxUint64
    ensures ScanDigits(s).err == None ==> ScanDigits(s).value == DecimalValue(s)
    decreases |s|
  {
    if |s| > 0 {
      var pre := s[..|s| - 1];
      ScanDigitsExact(pre);
      if AllDigits(s) {
        DecimalValueMonotone(s);
      } else {
        var i :| 0 <= i < |s| && !IsDigit(s[i]);
        if i < |s| - 1 {
          assert pre[i] == s[i];
        }
      }
    }
  }

  /** Once a prefix of `s` has failed, `s` fails the same way. */
  lemma {:induction false} ScanDigitsFailureSticks(s: string, k: nat)
    requires k <= |s|
    requires ScanDigits(s[..k]).err.Some?
    ensures ScanDigits(s) == ScanDigits(s[..k])
    decreases |s| - k
  {
    if k < |s| {
      assert s[..k + 1][..k] == s[..k];
      ScanDigitsFailureSticks(s, k + 1);
    } else {
      assert s[..k] == s;
    }
  }

  /** A non-digit met before the value overflows is a syntax error, whatever
      follows it. */
  lemma ScanDigitsSyntax(s: string, i: nat)
    requires i < |s| && !IsDigit(s[i])
    requires AllDigits(s[..i]) && DecimalValue(s[..i]) <= MaxUint64
    ensures ScanDigits(s) == Parsed(0, Some(ErrSyntax))
  {
    ScanDigitsExact(s[..i]);
    assert s[..i + 1][..i] == s[..i];
    ScanDigitsFailureSticks(s, i + 1);
  }

  /** A digit string too large for 64 bits is a range error. */
  lemma ScanDigitsRange(s: string)
    requires AllDigits(s) && DecimalValue(s) > MaxUint64
    ensures ScanDigits(s) == Parsed(MaxUint64, Some(ErrRange))
  {
    ScanDigitsExact(s);
    ScanDigitsNoSyntax(s);
    assert ScanDigits(s).err.value.ErrRange?;
  }

  /** A digit string never gives a syntax error. */
  lemma {:induction false} ScanDigitsNoSyntax(s: string)
    requires AllDigits(s)
    ensures ScanDigits(s).err != Some(ErrSyntax)
    decreases |s|
  {
    if |s| > 0 {
      DecimalValueMonotone(s);
      ScanDigitsNoSyntax(s[..|s| - 1]);
    }
  }

  /** `ParseInt` reports no error exactly on a sign-prefixed digit string whose
      value is a 64-bit signed integer, and then returns that value. */
  lemma ParseInt64Exact(s: string)
    ensures ParseInt64(s).err == None <==> WellFormed(s) && MinInt64 <= SignedValue(s) <= MaxInt64
    ensures ParseInt64(s).err == None ==> ParseInt64(s).value == SignedValue(s)
  {
    ScanDigitsExact(Body(s));
    var u := ParseUint64(Body(s));
    if u.err.Some? {
      assert u.err.value.ErrSyntax? || u.err.value.ErrRange?;
    }
  }

  /** An out-of-range decimal is clamped to the bound on its side. */
  lemma ParseInt64Clamps(s: string)
    ensures (WellFormed(s) && !(MinInt64 <= SignedValue(s) <= MaxInt64))
              ==> ParseInt64(s) == Parsed(if Negative(s) then MinInt64 else MaxInt64, Some(ErrRange))
  {
    if WellFormed(s) {
      ScanDigitsExact(Body(s));
      ScanDigitsNoSyntax(Body(s));
      var u := ParseUint64(Body(s));
      if u.err.Some? {
        assert u.err.value.ErrRange?;
      }
    }
  }

  /** Digits that overflow before any other character is read give a range
      error, clamped on the side of the sign, whatever follows them. */
  lemma ParseInt64PrefixOverflow(s: string, i: nat)
    requires i <= |Body(s)|
    requires AllDigits(Body(s)[..i]) && DecimalValue(Body(s)[..i]) > MaxUint64
    ensures ParseInt64(s) == Parsed(if Negative(s) then MinInt64 else MaxInt64, Some(ErrRange))
  {
    ScanDigitsRange(Body(s)[..i]);
    ScanDigitsFailureSticks(Body(s), i);
  }

  lemma {:induction false} DigitsSound(n: nat)
    ensures |Digits(n)| > 0 && AllDigits(Digits(n))
    ensures DecimalValue(Digits(n)) == n
    decreases n
  {
    if n >= 10 {
      DigitsSound(n / 10);
      var s := Digits(n);
      assert s[..|s| - 1] == Digits(n / 10);
    }
  }

  /** Formatting then parsing a 64-bit integer gives it back with no error. */
  lemma FormatIntRoundTrip(n: int)
    requires MinInt64 <= n <= MaxInt64
    ensures ParseInt64(FormatInt(n)) == Parsed(n, None)
  {
    var s := FormatInt(n);
    if n < 0 {
      DigitsSound(-n);
      assert Body(s) == Digits(-n);
    } else {
      DigitsSound(n);
      assert Body(s) == Digits(n);
    }
    ParseInt64Exact(s);
  }
}

=== FILE: wrappers.dfy ===
/** Optional values. They stand for Go's nil-able pointers, and `GetOr`
    for the nil-safe getters that protobuf generates for them. */
module Wrappers {

  datatype Option<+T> = None | Some(value: T) {

    /** The value when present, otherwise `default`. */
    function GetOr(default: T): T {
      match this
      case Some(v) => v
      case None => default
    }
  }
}
